=== FILE: README.md ===
# Theme switcher — Dafny model

A model of the theme-preference logic of a single page script (`theme.js`):
how the page picks a light or dark theme from the stored `theme` entry or the
operating system's `prefers-color-scheme` signal, how that theme is rendered
onto the body classes and the `theme-toggle` button on the next animation
frame, how a click toggles it, and how OS theme changes are debounced and
shadowed by a stored preference. The two viewport-width gates of the script
(scroll reveal below 1025 px, scroll arrow from 1025 px) are modelled too.

The browser is an immutable `Page` value (`ThemeSwitch.Page`): the stored
entry (`Option<string>`, any string including `""`), the media-query flag,
the `dark-theme` and `light-theme` class flags, the optional button (text and
`aria-label`), the queue of pending animation-frame renders, and the pending
OS-change timeout. Each handler is a pure function on it; `ThemeRuns.Step`
and `ThemeRuns.Run` apply arbitrary event sequences (page ready, click, media
query change, timeout, frame). A `ready` flag records whether the
DOMContentLoaded handler has run: it runs once, and a click does nothing
before it or on a page without the button, since the click listener is only
attached by that handler and only when the button exists (lines 43, 48-51).
The media-query listener, registered when the script is evaluated (line 122),
is active from the start.

Modelling choices:
- `requestAnimationFrame` queues every callback and runs them all, in order,
  on the next frame; the model keeps that queue, and the contract of `RunFrames`
  shows it behaves as one pending slot superseded by each apply.
- The 100 ms OS-change timeout is a slot holding the `matches` value it will
  apply; a new notification replaces it (the `clearTimeout` at line 124), the
  `OsTimeout` event fires it. Real time is not modelled; any interleaving of
  events is allowed.
- Storage is checked when the notification arrives (line 123), not when the
  timeout fires. `PendingTimeoutOutlivesClick` shows the consequence: a
  timeout scheduled before the first click still renders the OS theme after
  it, leaving the body light while storage holds "dark". Media-query changes
  that arrive after a preference is stored are still invisible, pending
  timeout or not (`OsChangesInvisible`, `ClickThenOsChangesInvisible`).
- The reveal gate is `window.innerWidth < 1025` (line 74) and the arrow gate
  `window.innerWidth >= 1025` (line 58), so 1024 registers every card and
  1025 none (`Layout.Breakpoint`).

## Model

| member | source | states |
|---|---|---|
| ThemeSwitch.Resolve | theme.js:5-11 | a non-empty stored string is returned verbatim; a missing or empty entry yields "dark" exactly when the OS prefers dark, else "light" |
| ThemeRuns.StoredBeatsOs | theme.js:6-9 | for a non-empty stored string the result is that string and does not depend on the OS flag |
| ThemeRuns.EmptyIsAbsent | theme.js:7-10 | a stored `""` resolves exactly as a missing entry, to the OS-derived theme |
| ThemeSwitch.PageReady | theme.js:43-51 | the page-ready handler queues the resolved theme, marks the click listener attached, and changes nothing else |
| ThemeRuns.ReadyShowsPreference | theme.js:43-45 | page ready then the next frame, whatever was queued before, leaves the page consistent and shows dark iff the stored value is "dark", or nothing usable is stored and the OS prefers dark |
| ThemeRuns.Step | theme.js:43-51 | the page-ready handler runs once; a click is ignored before it or without the button; no event of this page but a click changes storage; no event creates or removes the button |
| ThemeSwitch.Render | theme.js:16-27 | exactly one body class is set, dark only for the exact string "dark"; a present button announces the other theme, an absent one stays absent; nothing else changes |
| ThemeSwitch.ButtonFor | theme.js:24-25 | a dark page gets the sun glyph with "Switch to light mode", a light page the moon glyph with "Switch to dark mode" |
| ThemeSwitch.ApplyTheme | theme.js:14-16 | applying only queues the theme for the next frame and changes nothing else |
| ThemeSwitch.RunFrames | theme.js:16 | running a queue of frame callbacks leaves the page exactly as rendering only the last queued theme would, so the queue acts as one slot superseded by each apply |
| ThemeSwitch.FlushFrames | theme.js:16-27 | after a frame the queue is empty and, if anything was queued, the page is exactly the render of the last queued theme, consistent and showing it; the button is neither created nor removed; storage, timer and listeners are untouched |
| ThemeRuns.RenderOverwrites | theme.js:17-26 | a render erases every effect of an earlier one |
| ThemeRuns.StepKeepsConsistent | theme.js:17-26 | no event breaks consistency (one body class, button announcing the other theme) |
| ThemeRuns.RunKeepsConsistent | theme.js:14-40 | consistency, once established, holds after any event sequence |
| ThemeRuns.FrameEstablishesConsistent | theme.js:16-27 | any frame that runs a render makes the page consistent, including the first |
| ThemeSwitch.Toggle | theme.js:31-40 | stores the opposite of the theme shown by the `dark-theme` class and queues its render; nothing else changes |
| ThemeRuns.ToggleIgnoresStorage | theme.js:32 | the toggle's outcome does not depend on what storage held |
| ThemeRuns.ButtonAnnouncesClick | theme.js:24-39 | the button's label names the theme a click shows once its frame runs |
| ThemeRuns.ToggleRoundTrip | theme.js:31-40 | click, frame, click, frame restores both body classes and stores the originally shown theme |
| ThemeRuns.DoubleClickWithinFrame | theme.js:16-36 | two clicks before a frame store and apply the same theme, so after the frame the theme is flipped once, not restored |
| ThemeRuns.OnlyClickWritesStorage | theme.js:36 | every event of this page other than a click leaves storage unchanged |
| ThemeRuns.PreferenceIsPermanent | theme.js:36 | once a non-empty preference is stored, it stays non-empty after any event sequence |
| ThemeSwitch.OsChange | theme.js:122-129 | the media-query flag follows the OS; without a stored preference the pending timeout is replaced by one holding the new value, with one nothing else changes |
| ThemeSwitch.FireOsTimer | theme.js:125-127 | a pending timeout queues the render of its theme and clears itself; with none pending nothing happens |
| ThemeRuns.OsChangeShadowed | theme.js:123 | with a stored preference a media-query change only updates the query flag |
| ThemeRuns.ClickShadowsOsChanges | theme.js:122-123 | after a click, a media-query change schedules nothing |
| ThemeRuns.OsChangesInvisible | theme.js:121-129 | with a preference stored, removing all media-query changes from any event sequence changes nothing but the query flag, even with a timeout pending |
| ThemeRuns.ClickThenOsChangesInvisible | theme.js:122-123 | after any click, removing all later media-query changes from any event sequence changes nothing but the query flag |
| ThemeRuns.PendingTimeoutOutlivesClick | theme.js:123-126 | a timeout scheduled before a click still renders the OS theme afterwards, disagreeing with storage |
| ThemeRuns.BurstKeepsLast | theme.js:124-126 | a burst of notifications without a stored preference leaves one pending timeout holding the last value |
| ThemeRuns.DebounceCollapse | theme.js:121-129 | the burst followed by the timeout queues exactly one render, of the last notified theme |
| Layout.RevealRegistrations | theme.js:74-75 | every card is registered below 1025 px, none from 1025 px on |
| Layout.ArrowTarget | theme.js:56-62 | the arrow scrolls to the section's scroll width exactly when a section exists and the width is at least 1025 px |
| Layout.Breakpoint | theme.js:58-74 | 1024 registers every card and the arrow is inert; 1025 registers none and the arrow scrolls |
| Layout.GatesPartitionWidths | theme.js:58-74 | with at least one card and a section present, exactly one of the reveal and the arrow is active at every width |

## Left out

- The DOM, `localStorage`, `matchMedia` and `getElementById` are fields of the page value rather than calls; storage failures are not modelled.
- Real time: the 100 ms and 250 ms delays and frame timing are not modelled; timers and frames are events that may occur in any order.
- The IntersectionObserver (lines 78-105): its margin and threshold geometry and the delayed add / immediate removal of `in-view` are browser layout behaviour with no algorithm to state; only the registration gate is modelled.
- The smooth scroll itself (lines 59-62): only the gate and the target position are modelled.
- The resize handler (lines 109-116), which adds another `resize` listener on every call and never disconnects earlier observers: event-listener plumbing.
- ThemeRuns.Step: storage is treated as private to one page. `localStorage` is shared by every page of the same origin, but a write by another tab running this script (its own toggle at line 36) and the user clearing site data are not events here. So `stored` changes only on this page's clicks, and `ThemeRuns.OnlyClickWritesStorage` and `ThemeRuns.PreferenceIsPermanent` hold for this page's own events only. For example, the model cannot reach a page that stops following the OS after a click in another tab while it still shows the OS theme.

=== FILE: layout.dfy ===
/**
 * The two viewport-width gates of the page script: the scroll reveal for
 * mobile and tablet widths, and the desktop scroll arrow. They split the
 * widths at one breakpoint, so that at any width exactly one is active.
 */
module Layout {
  import opened Options

  /** The first width, in CSS pixels, treated as desktop. */
  const DesktopWidth: int := 1025

  /** Whether initScrollReveal registers the cards at this width. */
  predicate RevealActive(width: int)
  {
    width < DesktopWidth
  }

  /** How many cards initScrollReveal hands to its observer: every direct
      child block of the section below the breakpoint, none from it on. */
  function RevealRegistrations(width: int, cards: nat): (n: nat)
    ensures n <= cards
    ensures width < DesktopWidth ==> n == cards
    ensures width >= DesktopWidth ==> n == 0
  {
    if RevealActive(width) then cards else 0
  }

  /** A click on the scroll arrow: when a section exists and the viewport is
      desktop-wide, the scroll target is the section's full scroll width;
      otherwise the click does nothing (None). */
  function ArrowTarget(width: int, sectionScrollWidth: Option<nat>): (target: Option<nat>)
    ensures target.Some? <==> sectionScrollWidth.Some? && width >= DesktopWidth
    ensures target.Some? ==> target.value == sectionScrollWidth.value
  {
    if sectionScrollWidth.Some? && width >= DesktopWidth then Some(sectionScrollWidth.value) else None
  }

  /** The boundary: 1024 still registers every card, 1025 registers none and
      is the first width at which the arrow scrolls. */
  lemma Breakpoint(cards: nat, scrollWidth: nat)
    ensures RevealRegistrations(1024, cards) == cards
    ensures RevealRegistrations(1025, cards) == 0
    ensures ArrowTarget(1024, Some(scrollWidth)) == None
    ensures ArrowTarget(1025, Some(scrollWidth)) == Some(scrollWidth)
  {
  }

  /** At every width with a section present, exactly one of the two features
      acts: the reveal registers its cards or the arrow scrolls. */
  lemma GatesPartitionWidths(width: int, cards: nat, scrollWidth: nat)
    requires cards > 0
    ensures (RevealRegistrations(width, cards) > 0) != ArrowTarget(width, Some(scrollWidth)).Some?
  {
  }
}

=== FILE: options.dfy ===
/** Optional values: a missing storage entry, an absent DOM element, an idle timer. */
module Options {

  datatype Option<+T> = None | Some(value: T)
}

=== FILE: theme_runs.dfy ===
/**
 * Sequences of page events and the properties the theme switcher keeps
 * across them: resolution precedence, the toggle round trip, OS-change
 * shadowing, debounce collapse, and the consistency invariant.
 */
module ThemeRuns {
  import opened Options
  import opened ThemeSwitch

  /** Everything that can happen to the page, one event at a time. */
  datatype Event =
    | Ready                  // DOMContentLoaded (fires once)
    | Click                  // a click on the toggle button
    | SchemeChange(matches: bool)  // a `change` of the media query
    | OsTimeout              // the 100 ms OS-change timeout fires
    | Frame                  // the next animation frame

  /**
   * One event. DOMContentLoaded runs its handler once. A click reaches
   * toggleTheme only when the page has the button and the page-ready handler
   * has attached the listener to it; otherwise nothing listens.
   */
  function Step(p: Page, e: Event): (r: Page)
    ensures r.ready == (p.ready || e.Ready?)
    ensures e.Ready? && p.ready ==> r == p
    ensures e.Click? && !(p.ready && p.toggle.Some?) ==> r == p
    ensures !e.Click? ==> r.stored == p.stored
    ensures r.toggle.Some? <==> p.toggle.Some?
  {
    match e
    case Ready => if p.ready then p else PageReady(p)
    case Click => if p.ready && p.toggle.Some? then Toggle(p) else p
    case SchemeChange(m) => OsChange(p, m)
    case OsTimeout => FireOsTimer(p)
    case Frame => FlushFrames(p)
  }

  function Run(p: Page, events: seq<Event>): Page
    decreases |events|
  {
    if |events| == 0 then p else Run(Step(p, events[0]), events[1..])
  }

  /** The events that are not media-query changes, in order. */
  function WithoutSchemeChanges(events: seq<Event>): (r: seq<Event>)
    ensures |r| <= |events|
    ensures forall i :: 0 <= i < |r| ==> !r[i].SchemeChange?
    decreases |events|
  {
    if |events| == 0 then []
    else if events[0].SchemeChange? then WithoutSchemeChanges(events[1..])
    else [events[0]] + WithoutSchemeChanges(events[1..])
  }

  /** `changes` media-query notifications, one after another. */
  function SchemeChanges(changes: seq<bool>): (r: seq<Event>)
    ensures |r| == |changes|
    ensures forall i :: 0 <= i < |r| ==> r[i] == SchemeChange(changes[i])
  {
    seq(|changes|, i requires 0 <= i < |changes| => SchemeChange(changes[i]))
  }

  /** An independent statement of which theme a page load should show. */
  predicate PrefersDarkOnLoad(stored: Option<string>, prefersDark: bool)
  {
    match stored
    case None => prefersDark
    case Some(v) => if v == "" then prefersDark else v == "dark"
  }

  // ---------------------------------------------------------------------
  // Resolution

  /** A non-empty stored string wins over the media query, verbatim. */
  lemma StoredBeatsOs(v: string, os1: bool, os2: bool)
    requires v != ""
    ensures Resolve(Some(v), os1) == v
    ensures Resolve(Some(v), os1) == Resolve(Some(v), os2)
  {
  }

  /** The empty stored string resolves exactly like a missing entry. */
  lemma EmptyIsAbsent(os: bool)
    ensures Resolve(Some(""), os) == Resolve(None, os)
    ensures Resolve(None, os) == Dark <==> os
    ensures Resolve(None, os) == Light <==> !os
  {
  }

  /** Page load followed by its frame shows dark exactly when the stored
      value is "dark", or when nothing usable is stored and the OS prefers
      dark; every other stored string shows light. */
  lemma ReadyShowsPreference(p: Page)
    ensures var r := FlushFrames(PageReady(p));
      && Consistent(r)
      && r.ready
      && (r.darkTheme <==> PrefersDarkOnLoad(p.stored, p.prefersDark))
  {
  }

  // ---------------------------------------------------------------------
  // Rendering

  /** Rendering twice is rendering the second theme: each render overwrites
      everything an earlier one set. */
  lemma RenderOverwrites(p: Page, t1: string, t2: string)
    ensures Render(Render(p, t1), t2) == Render(p, t2)
  {
  }

  /** Once the body has been rendered, every event keeps it consistent:
      exactly one theme class, and a button announcing the other theme. */
  lemma StepKeepsConsistent(p: Page, e: Event)
    requires Consistent(p)
    ensures Consistent(Step(p, e))
  {
  }

  lemma {:induction false} RunKeepsConsistent(p: Page, events: seq<Event>)
    requires Consistent(p)
    ensures Consistent(Run(p, events))
    decreases |events|
  {
    if |events| > 0 {
      StepKeepsConsistent(p, events[0]);
      RunKeepsConsistent(Step(p, events[0]), events[1..]);
    }
  }

  /** Any frame that runs a queued render makes the page consistent, even
      the very first one. */
  lemma FrameEstablishesConsistent(p: Page)
    requires p.frames != []
    ensures Consistent(Step(p, Frame))
  {
  }

  // ---------------------------------------------------------------------
  // Toggling

  /** Toggle reads the body class and ignores storage: two pages that differ
      only in what is stored toggle to the same stored value and render. */
  lemma ToggleIgnoresStorage(p: Page, other: Option<string>)
    ensures Toggle(p.(stored := other)) == Toggle(p)
  {
  }

  /** What the button announces is what a click produces once its frame runs. */
  lemma ButtonAnnouncesClick(p: Page)
    requires Consistent(p) && p.toggle.Some? && p.ready
    ensures var r := Run(p, [Click, Frame]);
      p.toggle.value.ariaLabel == "Switch to " + Rendered(r) + " mode"
  {
  }

  /** Click, frame, click, frame: the body classes return to where they
      were and storage holds the theme that was shown at the start. */
  lemma ToggleRoundTrip(p: Page)
    requires p.darkTheme != p.lightTheme && p.toggle.Some? && p.ready
    ensures var r := Run(p, [Click, Frame, Click, Frame]);
      && r.darkTheme == p.darkTheme
      && r.lightTheme == p.lightTheme
      && r.stored == Some(Rendered(p))
      && r.frames == []
  {
  }

  /** Two clicks before the frame runs both read the same body class, so
      both store and apply the same theme: the second click is lost. */
  lemma DoubleClickWithinFrame(p: Page)
    requires p.darkTheme != p.lightTheme && p.toggle.Some? && p.ready
    ensures var r := Run(p, [Click, Click]);
      && r.stored == Some(Opposite(Rendered(p)))
      && r.frames == p.frames + [Opposite(Rendered(p)), Opposite(Rendered(p))]
    ensures var r := Run(p, [Click, Click, Frame]);
      && r.darkTheme == !p.darkTheme
      && r.stored == Some(Rendered(r))
  {
  }

  // ---------------------------------------------------------------------
  // Storage and OS changes

  /** Only a click writes storage; every other event leaves it alone. */
  lemma OnlyClickWritesStorage(p: Page, e: Event)
    requires !e.Click?
    ensures Step(p, e).stored == p.stored
  {
  }

  /** Once a preference is stored it stays stored: every later storage write
      is a click, which writes a non-empty theme. */
  lemma {:induction false} PreferenceIsPermanent(p: Page, events: seq<Event>)
    requires HasPreference(p.stored)
    ensures HasPreference(Run(p, events).stored)
    decreases |events|
  {
    if |events| > 0 {
      PreferenceIsPermanent(Step(p, events[0]), events[1..]);
    }
  }

  /** With a preference stored, a media-query change only updates the
      query's own state. */
  lemma OsChangeShadowed(p: Page, matches: bool)
    requires HasPreference(p.stored)
    ensures Step(p, SchemeChange(matches)) == p.(prefersDark := matches)
  {
  }

  /** After a click, no media-query change schedules anything. */
  lemma ClickShadowsOsChanges(p: Page, matches: bool)
    ensures Step(Toggle(p), SchemeChange(matches)) == Toggle(p).(prefersDark := matches)
  {
  }

  /** Pages that agree on everything but the media-query state. */
  predicate SameButOs(p: Page, q: Page)
  {
    p.(prefersDark := q.prefersDark) == q
  }

  /** One event other than a media-query change, on two pages that differ
      only in the query flag: the results still differ only there, and the
      preference survives. */
  lemma StepPreservesSameButOs(p: Page, q: Page, e: Event)
    requires HasPreference(p.stored)
    requires SameButOs(p, q) && !e.SchemeChange?
    ensures SameButOs(Step(p, e), Step(q, e))
    ensures HasPreference(Step(p, e).stored)
  {
  }

  /** Dropping the first events of a sequence when they are media-query changes. */
  lemma WithoutSchemeChangesHead(events: seq<Event>)
    requires |events| > 0
    ensures events[0].SchemeChange? ==> WithoutSchemeChanges(events) == WithoutSchemeChanges(events[1..])
    ensures !events[0].SchemeChange? ==>
      && |WithoutSchemeChanges(events)| > 0
      && WithoutSchemeChanges(events)[0] == events[0]
      && WithoutSchemeChanges(events)[1..] == WithoutSchemeChanges(events[1..])
  {
  }

  /**
   * With a preference stored, media-query changes are invisible for good:
   * dropping every one of them from any event sequence leaves storage, body
   * classes, button, frame queue and timer as they would have been. A
   * timeout that was already pending fires the same way in both runs.
   */
  lemma {:induction false} OsChangesInvisible(p: Page, q: Page, events: seq<Event>)
    requires HasPreference(p.stored)
    requires SameButOs(p, q)
    ensures SameButOs(Run(p, events), Run(q, WithoutSchemeChanges(events)))
    decreases |events|
  {
    if |events| > 0 {
      var e := events[0];
      WithoutSchemeChangesHead(events);
      if e.SchemeChange? {
        OsChangesInvisible(Step(p, e), q, events[1..]);
      } else {
        StepPreservesSameButOs(p, q, e);
        OsChangesInvisible(Step(p, e), Step(q, e), events[1..]);
      }
    }
  }

  /** After any click, no later media-query change alters anything but the
      query flag, whatever events follow. */
  lemma ClickThenOsChangesInvisible(p: Page, events: seq<Event>)
    ensures SameButOs(Run(Toggle(p), events), Run(Toggle(p), WithoutSchemeChanges(events)))
  {
    OsChangesInvisible(Toggle(p), Toggle(p), events);
  }

  /**
   * The storage check happens when the notification arrives, not when the
   * timeout fires, so a timeout scheduled before the first click still
   * applies the OS theme after it: here the body ends light while storage
   * holds "dark".
   */
  lemma PendingTimeoutOutlivesClick()
    ensures var p := Page(stored := None, prefersDark := false,
                  darkTheme := false, lightTheme := true,
                  toggle := Some(ButtonFor(false)), frames := [],
                  osTimer := None, ready := true);
      var r := Run(p, [SchemeChange(true), SchemeChange(false), Click, OsTimeout, Frame]);
      && r.stored == Some(Dark)
      && !r.darkTheme && r.lightTheme
  {
  }

  // ---------------------------------------------------------------------
  // Debouncing

  /** A burst of notifications with no stored preference leaves one pending
      timeout, holding the last value; earlier ones are discarded. */
  lemma {:induction false} BurstKeepsLast(p: Page, changes: seq<bool>)
    requires !HasPreference(p.stored) && |changes| > 0
    ensures var r := Run(p, SchemeChanges(changes));
      && r.osTimer == Some(changes[|changes| - 1])
      && r.prefersDark == changes[|changes| - 1]
      && r.(osTimer := p.osTimer, prefersDark := p.prefersDark) == p
    decreases |changes|
  {
    var evs := SchemeChanges(changes);
    var p' := Step(p, evs[0]);
    assert evs[1..] == SchemeChanges(changes[1..]);
    if |changes| > 1 {
      BurstKeepsLast(p', changes[1..]);
    }
  }

  /** The burst then the timeout: exactly one theme is applied, the one
      matching the last notification. */
  lemma DebounceCollapse(p: Page, changes: seq<bool>)
    requires !HasPreference(p.stored) && |changes| > 0
    ensures var r := Step(Run(p, SchemeChanges(changes)), OsTimeout);
      && r.frames == p.frames + [ThemeFor(changes[|changes| - 1])]
      && r.osTimer == None
  {
    BurstKeepsLast(p, changes);
  }
}

=== FILE: theme_switch.dfy ===
/**
 * The theme-preference state machine of the page script: resolving the
 * preferred theme, rendering it onto the body and the toggle button, the
 * manual toggle, and the debounced reaction to operating-system theme changes.
 *
 * The browser objects the script talks to (local storage, the
 * `prefers-color-scheme` media query, the body's class list, the
 * `theme-toggle` element, the animation-frame queue and the OS-change timer)
 * are fields of one immutable `Page` value, and every operation is a pure
 * function from page to page.
 */
module ThemeSwitch {
  import opened Options

  const Dark: string := "dark"
  const Light: string := "light"

  /** The glyphs shown on the toggle button: a sun (U+2600 with the emoji
      presentation selector U+FE0F) and a crescent moon (U+1F319). */
  const Sun: string := "\U{2600}\U{FE0F}"
  const Moon: string := "\U{1F319}"

  /** The `theme-toggle` button: its text content and its `aria-label`. */
  datatype Button = Button(text: string, ariaLabel: string)

  /**
   * The page as the script sees it.
   * - stored:      the `theme` entry of local storage; None when absent. Any
   *                string may be stored, including the empty one.
   * - prefersDark: whether `(prefers-color-scheme: dark)` currently matches.
   * - darkTheme, lightTheme: the two theme classes on the body.
   * - toggle:      the `theme-toggle` element, None when the page has none.
   * - frames:      themes passed to `applyTheme` whose animation-frame
   *                callback has not run yet, oldest first.
   * - osTimer:     the pending OS-change timeout, holding the `matches` value
   *                it will apply; None when no timeout is pending.
   * - ready:       whether DOMContentLoaded has run; the click listener exists
   *                only from then on.
   */
  datatype Page = Page(
    stored: Option<string>,
    prefersDark: bool,
    darkTheme: bool,
    lightTheme: bool,
    toggle: Option<Button>,
    frames: seq<string>,
    osTimer: Option<bool>,
    ready: bool)

  /** JavaScript truthiness of the storage read: null and "" are both falsy. */
  predicate HasPreference(stored: Option<string>)
  {
    stored.Some? && stored.value != ""
  }

  /** The theme name for a "dark" flag: the mapping the script uses for the
      media query and for the body class alike. */
  function ThemeFor(dark: bool): (t: string)
    ensures t == Dark || t == Light
    ensures t == Dark <==> dark
  {
    if dark then Dark else Light
  }

  /** The other of the two canonical themes. */
  function Opposite(theme: string): (t: string)
    requires theme == Dark || theme == Light
    ensures t == Dark || t == Light
    ensures t != theme
  {
    if theme == Dark then Light else Dark
  }

  /** The theme the body currently shows, read from the `dark-theme` class only. */
  function Rendered(p: Page): (t: string)
    ensures t == Dark <==> p.darkTheme
    ensures t == Light <==> !p.darkTheme
  {
    ThemeFor(p.darkTheme)
  }

  /** What the toggle button should show while the body is (or is not) dark:
      the glyph and label of the theme a click will switch to. */
  function ButtonFor(dark: bool): (b: Button)
    ensures dark ==> b == Button(Sun, "Switch to light mode")
    ensures !dark ==> b == Button(Moon, "Switch to dark mode")
  {
    var next := ThemeFor(!dark);
    Button(if next == Light then Sun else Moon, "Switch to " + next + " mode")
  }

  /** The observable-consistency invariant: exactly one theme class is set,
      and a present toggle button describes the opposite of the shown theme. */
  predicate Consistent(p: Page)
  {
    && p.darkTheme != p.lightTheme
    && (p.toggle.Some? ==> p.toggle.value == ButtonFor(p.darkTheme))
  }

  /**
   * getThemePreference: a non-empty stored string is returned as it is, even
   * when it names no theme; otherwise the media query decides.
   */
  function Resolve(stored: Option<string>, prefersDark: bool): (t: string)
    ensures HasPreference(stored) ==> t == stored.value
    ensures !HasPreference(stored) ==> t == ThemeFor(prefersDark)
  {
    if HasPreference(stored) then stored.value
    else if prefersDark then Dark else Light
  }

  /**
   * The animation-frame callback of applyTheme: sets exactly one theme class
   * (dark only for the exact string "dark") and, when the button exists,
   * makes it announce the opposite theme. Nothing else changes.
   */
  function Render(p: Page, theme: string): (r: Page)
    ensures r.darkTheme <==> theme == Dark
    ensures r.lightTheme <==> theme != Dark
    ensures Consistent(r)
    ensures r.toggle.Some? <==> p.toggle.Some?
    ensures r.(darkTheme := p.darkTheme, lightTheme := p.lightTheme, toggle := p.toggle) == p
  {
    var isDark := theme == Dark;
    var button := if p.toggle.Some? then Some(ButtonFor(isDark)) else None;
    p.(darkTheme := isDark, lightTheme := !isDark, toggle := button)
  }

  /** applyTheme itself: the render is only queued for the next frame. */
  function ApplyTheme(p: Page, theme: string): (r: Page)
    ensures r.frames == p.frames + [theme]
    ensures r.(frames := p.frames) == p
  {
    p.(frames := p.frames + [theme])
  }

  /** Runs queued frame callbacks in order, starting from page `p`. */
  function RunFrames(p: Page, queue: seq<string>): (r: Page)
    ensures |queue| == 0 ==> r == p
    ensures |queue| > 0 ==> r == Render(p, queue[|queue| - 1])
    decreases |queue|
  {
    if |queue| == 0 then p
    else RunFrames(Render(p, queue[0]), queue[1..])
  }

  /** The next animation frame: every queued callback runs, oldest first. */
  function FlushFrames(p: Page): (r: Page)
    ensures r.frames == []
    ensures p.frames == [] ==> r == p
    ensures p.frames != [] ==> r == Render(p.(frames := []), p.frames[|p.frames| - 1])
    ensures p.frames != [] ==> Consistent(r) && Rendered(r) == ThemeFor(p.frames[|p.frames| - 1] == Dark)
    ensures r.toggle.Some? <==> p.toggle.Some?
    ensures r.stored == p.stored && r.osTimer == p.osTimer && r.prefersDark == p.prefersDark
    ensures r.ready == p.ready
  {
    RunFrames(p.(frames := []), p.frames)
  }

  /** DOMContentLoaded: resolve the preference, apply it, and attach the
      click listener. */
  function PageReady(p: Page): (r: Page)
    ensures r.frames == p.frames + [Resolve(p.stored, p.prefersDark)]
    ensures r.ready
    ensures r.(frames := p.frames, ready := p.ready) == p
  {
    ApplyTheme(p.(ready := true), Resolve(p.stored, p.prefersDark))
  }

  /**
   * toggleTheme: the current theme is read from the `dark-theme` class, never
   * from storage; its opposite is stored and applied.
   */
  function Toggle(p: Page): (r: Page)
    ensures r.stored == Some(Opposite(Rendered(p)))
    ensures HasPreference(r.stored)
    ensures r.frames == p.frames + [Opposite(Rendered(p))]
    ensures r.(stored := p.stored, frames := p.frames) == p
  {
    var next := Opposite(Rendered(p));
    ApplyTheme(p.(stored := Some(next)), next)
  }

  /**
   * The `change` listener of the media query. The query's own state follows
   * the OS at once; when no preference is stored, any pending timeout is
   * cancelled and a new one holding the new value is scheduled.
   */
  function OsChange(p: Page, matches: bool): (r: Page)
    ensures r.prefersDark == matches
    ensures HasPreference(p.stored) ==> r == p.(prefersDark := matches)
    ensures !HasPreference(p.stored) ==> r == p.(prefersDark := matches, osTimer := Some(matches))
  {
    var q := p.(prefersDark := matches);
    if !HasPreference(p.stored) then q.(osTimer := Some(matches)) else q
  }

  /** The OS-change timeout fires: its value is applied, whatever storage
      holds by now. With no timeout pending nothing happens. */
  function FireOsTimer(p: Page): (r: Page)
    ensures r.osTimer == None
    ensures p.osTimer == None ==> r == p
    ensures p.osTimer.Some? ==> r.frames == p.frames + [ThemeFor(p.osTimer.value)]
    ensures r.(frames := p.frames, osTimer := p.osTimer) == p
  {
    match p.osTimer
    case None => p
    case Some(m) => ApplyTheme(p.(osTimer := None), ThemeFor(m))
  }
}
